=== FILE: README.md ===
# Gate access decisions and the attendance viewer, in Dafny

This project models the logic core of MyCaT, a gated-venue attendance system.

A card reader at a gate posts a tap: a card id (`myKadUID`) and a gate id (`venueBSSID`), sometimes with a face snapshot. The server decides whether to admit the tap by running these checks in order:

1. Is the input present?
2. Is the card inside the 15-second anti-replay cooldown?
3. Is the card registered?
4. Is there an event at the gate? The newest event created for the gate is the one consulted.
5. Is the time inside the event's start/end window?
6. Is the student bound to this venue?

If every check passes, the student's IN/OUT presence flips. Each scan request appends exactly one attendance-log record. A viewer app polls the newest record for its gate. It shows each record strictly newer than the last one it accepted, in two phases for verified taps, and clears itself five seconds later. The event builder imports its roster from CSV rows, keeping and trimming the rows that have a `uid` and a `name`.

Everything is modelled as immutable values and pure functions:

- `common.dfy` (`Common`): optional values and JavaScript truthiness of a request field.
- `database.dfy` (`Database`): the Student, Event and AttendanceLog documents.
- `access.dfy` (`Access`): the cooldown tracker, the event resolver and `processAttendance`. The server state is `students` (a map), `events` (a sequence in creation order), `cooldown` (a map) and `log` (a sequence).
- `feed.dfy` (`Feed`): the two scan endpoints, the latest-record feed with its roster join, and event creation with the roster upsert.
- `traces.dfy` (`ServerTraces`): arbitrary sequences of requests, handled one at a time.
- `viewer.dfy` (`Viewer`): the scanner page as a state machine. Its stimuli are polls, phase timers, reset timers and event changes.
- `csv.dfy` (`CsvImport`): JavaScript `trim` and the row normalisation of the CSV import.
- `scenarios.dfy` (`Scenarios`): concrete runs over the repository's demonstration roster.

Times are integer milliseconds. One decision reads the clock three times: in `isRecentlyScanned`, for the decision timestamp, and for the window test. The model assumes the three readings coincide and passes a single `now`.

The model follows the code as written, including these behaviours:

- **Cooldown arming.** The cooldown is armed only by a verified scan that requires an image. The presence-only gate endpoint never arms it.
- **Double-scan snapshot.** The double-scan return skips the temp-file cleanup, so the uploaded snapshot is left in place (`LeftBehind`).
- **Failed rename.** The presence flip is written before the snapshot is renamed. A photo scan that passes every check but has no file to rename therefore ends in `ERROR` with the flip applied and the cooldown not armed. The `ERROR` record has no gate, so a gate-filtered feed never returns it.
- **No stored tap type.** The log schema has no tap-type field or snapshot reference, so neither is stored.
- **Roster upsert.** Event creation writes the venue binding and the presence under field names the schema does not declare, so Mongoose's strict mode drops them. A student first registered this way has no venue and is refused at every gate ("Wrong Hall"). An existing student keeps its venue and presence.
- **Stale phase timer.** The viewer never cancels its one-second phase timer. A denial accepted within a second of a verified record is later turned into the success display, with the denied student's photo.
- **Clock mixing.** The viewer's "last seen" time mixes server record times with the device clock. When the server clock is ahead, a cleared record is shown again.

## Model

| member | source | states |
|---|---|---|
| Database.FindStudent | backend/database.js:22-28 | the unique credential index: a credential resolves to at most one student, exactly when it is in the roster |
| Access.IsRecentlyScanned | backend/server.js:94-98 | an armed credential is throttled exactly while the clock is below its armed time plus 15000; a never-armed one exactly while the clock is below 15000 |
| Access.CooldownWindow | backend/server.js:91-98 | arming a credential at `at` throttles exactly its taps before `at + 15000`; a tap at exactly `at + 15000` passes; other credentials are unaffected |
| Access.NeverArmedNotThrottled | backend/server.js:94-97 | a never-armed credential reads as last scanned at time 0, so it is throttled only while the clock is below 15000 |
| Access.NewestEventAt | backend/server.js:137-138 | the chosen event is bound to the gate and no later-created event is; none is chosen exactly when no event is bound to the gate |
| Access.ActiveEvent | backend/server.js:137-144 | the consulted event is one of the stored events and is at the gate; "no event" exactly when none is at the gate |
| Access.NewestEventShadowsOlder | backend/server.js:136-138 | once an event is created at a gate, it is the one consulted there, whatever older events share the gate |
| Access.OtherGateEventsIgnored | backend/server.js:137 | an event at another gate never changes which event a gate consults |
| Access.Toggle | backend/server.js:165-172 | the new presence is always IN or OUT, and it is IN exactly when the old presence was OUT |
| Access.Screen | backend/server.js:125-163 | checks 3 to 6 produce no denial exactly when the tap is admissible; any denial is one of the five roster, event, window or venue reasons |
| Access.ProcessAttendance | backend/server.js:102-198 | missing input gives "Read Error" and changes nothing. A double scan happens iff inside the cooldown. The tap type is DENIED iff the status is not VERIFIED. No denial changes state. Presence flips iff every check passes (ENTRY iff it was OUT), even when the rename then fails. Every decision except ERROR carries the tapped gate. ERROR happens iff a photo scan passes but has no file, and carries the exception message and no gate. The cooldown is armed and the snapshot retained as (uid, now) only for a verified photo scan. The double-scan snapshot is left behind. |
| Access.FirstFailingCheckWins | backend/server.js:110-163 | a tap is denied iff some check of the seven-step chain fails, with the reason of the first failing one; so `now == start` and `now == end` pass, and an ended event outranks a wrong hall |
| Access.CooldownBlocksReadmission | backend/server.js:119-183 | after a verified photo scan at T, the same card at any gate is a double scan iff the second tap is before T + 15000 |
| Access.ConsecutiveAdmitsAlternate | backend/server.js:165-172 | two successive verified admits of one card have different tap types (ENTRY/EXIT alternate) |
| Access.FailedRenameStillFlips | backend/server.js:165-183 | a passing photo scan without a snapshot file errs, yet its presence flip is kept and the cooldown is not armed |
| Feed.LogOf | backend/server.js:210-216 | the record carries the decision's status, reason, gate and time, and its credential, or UNKNOWN when the credential is falsy |
| Feed.Record | backend/server.js:208-218 | the decision is the engine's; the reply is its status and reason; the log grows by exactly that decision's record; roster, events and cooldown are the engine's next state |
| Feed.AttendanceCheck | backend/server.js:204-219 | the engine decides the photo scan and the reply is its status and reason; exactly one record is appended and the earlier log is unchanged; the record holds the credential or UNKNOWN, the status, the reason, the time, and the gate except on ERROR; roster and cooldown follow the engine |
| Feed.GateDetection | backend/server.js:221-233 | the engine decides the scan without a photo and the reply is its status and reason; exactly one record is appended, with the tap's gate; events are untouched and the cooldown is never armed; the status is never ERROR; no snapshot is handled |
| Feed.NewestMatching | backend/server.js:245-249 | the selected record matches the gate filter (all records when the gate is falsy) and no matching record is newer; nothing is selected exactly when nothing matches |
| Feed.Enrich | backend/server.js:253-265 | the feed item carries the record's uid, status, reason and time, with the current roster's name and photo, or "Unknown" and no photo for an unknown card |
| Feed.Latest | backend/server.js:240-270 | null exactly when no record matches; otherwise the newest matching record, joined with the roster at read time |
| Feed.LatestStaysAtGate | backend/server.js:244-247 | a gate query never selects a record logged at another gate |
| Feed.LatestAfterScan | backend/server.js:194-247 | a photo scan no older than the log is what the next poll of its gate returns, unless it erred; an erred scan is invisible to the gate query and visible only unfiltered |
| Feed.Upsert | backend/server.js:63-75 | the registrant's name and placeholder photo are written; an existing student keeps its venue and presence; a new one has no venue and presence OUT; other students are untouched |
| Feed.UpsertAll | backend/server.js:62-76 | the roster gains exactly the imported credentials; each imported credential holds the placeholder photo and the name of its last roster row; no existing venue or presence changes; new students have no venue and presence OUT; students not imported are untouched |
| Feed.CreateEvent | backend/server.js:43-85 | refused, changing nothing, iff the title or venue is falsy or the roster is missing; otherwise the event is appended with window [now, now + 86400000] and the reply counts the roster rows. Every imported credential gets the placeholder photo and its last row's name. Existing students keep their venue and presence, students not in the roster are untouched, and new students get no venue and presence OUT. The cooldown and log are untouched. |
| Feed.FreshRegistrantNeverAdmitted | backend/server.js:64-74 | a card first registered by event creation has no venue binding, so every tap of it is denied |
| ServerTraces.LogGrowsByScans | backend/server.js:204-233 | over any request sequence the log only grows at its end, by exactly one record per scan request |
| ServerTraces.ApplyPresence | backend/server.js:164-172 | one request toggles a registered student's presence once if it admits that student, and otherwise leaves it |
| ServerTraces.PresenceFollowsAdmits | backend/server.js:164-183 | over any request sequence, a registered student's presence is its initial value toggled once per scan of it that passed every check, including erred photo scans |
| ServerTraces.ToggleParity | backend/server.js:166-172 | from IN or OUT, an even number of admits restores the presence and an odd number swaps it |
| ServerTraces.ApplyConsistent | backend/server.js:63-74 | every request keeps the invariant: only registered cards are armed, and every presence is IN or OUT, including students the roster upsert creates or rewrites |
| ServerTraces.RunConsistent | backend/server.js:166-183 | the invariant holds after any request sequence from a consistent state |
| Viewer.Mount | App.js:106-118 | the page opens with "last seen" at the clock, nothing shown and no timers |
| Viewer.Step | App.js:129-180 | a poll is handled as described for `OnPoll`; a due phase timer shows success with the frame on and consumes the oldest timer whatever is on screen; a due reset clears the screen and sets "last seen" to the clock; a timer not yet due changes nothing; a new event meets a fresh page |
| Viewer.DenialText | App.js:169 | the denial text is the reason, or the status when the reason is empty, and is never empty |
| Viewer.OnPoll | App.js:129-183 | the state changes iff a strictly newer record arrives; then "last seen" becomes its time, the reset is re-armed at now + 5000, and the details are set. A VERIFIED record shows the aligning warning and adds a phase timer. Any other status shows "ACCESS DENIED:\n" plus the reason, with the details hidden. Errors, non-ok replies and null bodies change nothing. |
| Viewer.EventChangeResets | App.js:106-127 | choosing an event opens a fresh page: "last seen" is the clock, nothing is shown, the frame is off, and no timer of the old page remains, so no later phase timer can turn the new page to success |
| Viewer.VerifiedTwoPhase | App.js:158-166 | a verified record first shows the warning with the frame off; once its phase timer is due it shows success with the frame on and the photo visible; earlier nothing changes |
| Viewer.AutoClear | App.js:175-180 | once the reset timer is due the screen clears and "last seen" becomes the clock, so the next poll ignores any record stamped at or before it |
| Viewer.StepCoherent | App.js:158-180 | every stimulus keeps the invariant: the green frame is on exactly while the success banner shows, and a shown denial always has a reset pending |
| Viewer.RunCoherent | App.js:158-180 | the invariant holds after any sequence of stimuli |
| Viewer.ShownIncreasing | App.js:138-141 | between clearings, the records shown have strictly increasing times, all newer than "last seen" at the start |
| Viewer.NoRedisplayAfter | App.js:175-180 | with a device clock that stays at or above t, no record stamped at or before t is shown once "last seen" has reached t |
| Viewer.StalePhaseTimerRevealsDenial | App.js:162-166 | a denial accepted within a second of a verified record is turned into the success banner with the denied student's photo visible |
| Viewer.SkewedClockRedisplay | App.js:138-180 | with the server clock ahead of the device, the clearing moves "last seen" back and the same record is shown twice |
| CsvImport.TrimStart | App.js:315 | the result is a suffix of the input, everything dropped is white space, and the result does not start with white space |
| CsvImport.TrimEnd | App.js:316 | the result is a prefix of the input, everything dropped is white space, and the result does not end with white space |
| CsvImport.Trim | App.js:315-316 | the result is a contiguous middle of the input whose cut-off margins are all white space, and it neither starts nor ends with white space, so exactly the leading and trailing white space is removed; it is empty iff the input is all white space |
| CsvImport.TrimIdempotent | App.js:315-316 | trimming a trimmed value changes nothing |
| CsvImport.NormalizeRows | App.js:312-317 | at most one output row per input row, each with both values already trimmed |
| CsvImport.NormalizeConcat | App.js:312-317 | normalisation distributes over concatenation, so kept rows keep their input order |
| CsvImport.NormalizeOne | App.js:313-317 | a single row yields its trimmed form iff its uid and name are non-empty before trimming |
| CsvImport.NormalizeMembers | App.js:312-317 | every kept row appears, trimmed, in the output, and every output row comes from a kept row |
| CsvImport.NormalizeEmpty | App.js:319-326 | the output is empty iff no row has both a non-empty uid and a non-empty name |
| CsvImport.BlankUidSurvives | App.js:313-316 | the filter runs before trimming, so a whitespace-only uid survives as the empty string |
| CsvImport.ImportCsv | App.js:319-326 | an import that keeps no row leaves the previous roster; otherwise the roster is exactly the normalised rows, in order, so it is non-empty, contains every kept row trimmed, and holds only trimmed values |
| Scenarios.TimeWindowScenario | backend/server.js:153-158 | on the seeded three-hour exam, a tap 1 ms before the start is "Event Not Started", 1 ms after is an ENTRY, and 1 ms after the end is "Event Ended" |
| Scenarios.WrongHallScenario | backend/server.js:160-163 | a tent-bound student tapping at hall A inside the exam window is "Wrong Hall" |
| Scenarios.UnregisteredScenario | backend/server.js:127-131 | the unknown card "ZZZZ" is "Unregistered Card" and is logged under its own id |
| Scenarios.EntryThenExitScenario | backend/server.js:221-233 | two presence scans a second apart give ENTRY then EXIT, and the feed shows the exit |
| Scenarios.PhotoCooldownScenario | backend/server.js:179-183 | a second photo scan ten seconds after a verified one is a double scan, even at another gate, and its snapshot is left behind |

## Left out

- HTTP plumbing is not modelled: Express routing, CORS, multer uploads, static file serving and the reply status codes. Snapshot files appear only as the abstract outcome `Snapshot` (none, retained, deleted, left behind).
- Database and connection failures are not modelled: `findOne`, `updateOne` and `create` throwing, `process.exit`, and a log `create` that fails after the decision. The only modelled exception is the snapshot rename, whose message is a parameter.
- Concurrency is not modelled, including the race between the cooldown check and the cooldown arm. Requests are handled one at a time.
- The three clock readings of one decision, and of one event creation, are assumed equal.
- Database order is idealised: event creation order is taken as the order of the event sequence (the source sorts by `_id`). When records tie on timestamp, the source's order is unspecified; the model returns the one appended last.
- `GET /api/events` (a plain listing) is not modelled. The `Event.findOne` in the latest-record route is not modelled either, because its result is never used.
- Cooldown keys that JavaScript objects inherit (`constructor`, `__proto__`) are not modelled. The model treats every credential as an ordinary key.
- Request fields are assumed to be strings or absent. The JSON body of the gate endpoint may carry numbers or objects. A numeric gate still finds its event through Mongoose's casting but then always fails the strict venue comparison. An object credential reaches the database queries as a query operator. Neither behaviour is modelled.
- Malformed roster entries in event creation (non-object elements) are not modelled, and neither are missing `uid` fields.
- CSV parsing is not modelled: reading the file, the header transform (trim and Unicode lower-casing) and the CSV parser itself. Normalisation starts from rows already keyed by the transformed header.
- The builder's client-side check before creating an event is not modelled.
- React details are not modelled: rendering, themes, sounds, camera permission, time-string formatting and photo-URL prefixing. The prefixing makes every photo address non-empty, so details always carry a photo. An event is chosen only on the home page, so an event change is modelled as a fresh mount of the scanner page; a phase timer left over from an earlier page only writes to the unmounted page and is dropped. Any other remount when the parent re-renders is not modelled, and neither is a poll still in flight from the previous event.
- The home, builder and scanner screens under `src/screens` and the seed script are outside this model. The seed fixtures reappear only as the concrete `Scenarios` state.

=== FILE: access.dfy ===
/** The gate access decision engine: the anti-replay cooldown, the event
    resolver and the ordered chain of checks that turns one tap into a
    verdict and the next server state (backend/server.js, processAttendance).

    The source reads the clock three times during one decision (the cooldown
    test, the decision timestamp and the window test); the model assumes the
    three readings coincide and passes a single `now`. */
module Access {
  import opened Common
  import opened Database

  /** The state the engine reads and writes: the roster, the events in
      creation order, the in-memory cooldown map and the attendance log. */
  datatype Server = Server(
    students: map<Uid, Student>,
    events: seq<Event>,
    cooldown: map<Uid, int>,
    log: seq<LogEntry>)

  /** One tap as the scan endpoints hand it over: the card id and gate as
      received (possibly missing or empty), the decision time, and whether
      an uploaded snapshot is waiting in the upload directory. */
  datatype Tap = Tap(uid: Option<string>, gate: Option<string>, now: int, hasTempFile: bool)

  /** What became of the uploaded snapshot: none was uploaded, it was kept
      as `<uid>_<at>.jpg`, it was deleted, or it was left where the upload
      put it. */
  datatype Snapshot = NoSnapshot | Retained(uid: Uid, at: int) | Deleted | LeftBehind

  /** The record processAttendance returns. `gate` is `tappedVenueBSSID`,
      which the error path leaves out. */
  datatype Decision = Decision(
    status: Status,
    reason: string,
    tapType: TapType,
    uid: Option<string>,
    gate: Option<Gate>,
    timestamp: int,
    snapshot: Snapshot)

  datatype Outcome = Outcome(decision: Decision, next: Server)

  const CooldownMs: int := 15000

  const ReadError: string := "Read Error"
  const DoubleScan: string := "Double Scan Detected"
  const Unregistered: string := "Unregistered Card"
  const NoEvent: string := "No Event at this Gate"
  const NotStarted: string := "Event Not Started"
  const Ended: string := "Event Ended"
  const WrongHall: string := "Wrong Hall"
  const AccessGranted: string := "Access Granted"

  // ---------------------------------------------------------------------
  // Cooldown tracker
  // ---------------------------------------------------------------------

  /** The last armed time of a credential; a credential never armed reads
      as time 0. */
  function LastScan(cooldown: map<Uid, int>, uid: Uid): int
  {
    if uid in cooldown then cooldown[uid] else 0
  }

  /** isRecentlyScanned: the tap falls strictly inside the cooldown window
      that starts at the credential's last armed time. */
  predicate IsRecentlyScanned(cooldown: map<Uid, int>, uid: Uid, now: int): (b: bool)
    ensures uid in cooldown ==> (b <==> now < cooldown[uid] + CooldownMs)
    ensures uid !in cooldown ==> (b <==> now < CooldownMs)
  {
    now - LastScan(cooldown, uid) < CooldownMs
  }

  /** Arming the cooldown at `at` throttles exactly the taps of that
      credential earlier than `at + 15000`, and no other credential. */
  lemma CooldownWindow(cooldown: map<Uid, int>, uid: Uid, at: int, now: int, other: Uid)
    requires other != uid
    ensures IsRecentlyScanned(cooldown[uid := at], uid, now) <==> now < at + CooldownMs
    ensures !IsRecentlyScanned(cooldown[uid := at], uid, at + CooldownMs)
    ensures IsRecentlyScanned(cooldown[uid := at], other, now) <==> IsRecentlyScanned(cooldown, other, now)
  {
  }

  /** A credential that was never armed is throttled only while the clock
      is below 15000 ms, so in practice never. */
  lemma NeverArmedNotThrottled(cooldown: map<Uid, int>, uid: Uid, now: int)
    requires uid !in cooldown
    ensures IsRecentlyScanned(cooldown, uid, now) <==> now < CooldownMs
  {
  }

  // ---------------------------------------------------------------------
  // Event resolver
  // ---------------------------------------------------------------------

  /** The index of the newest-created event bound to `gate`, if any. */
  function NewestEventAt(events: seq<Event>, gate: Gate): (r: Option<nat>)
    ensures r.Some? ==> r.value < |events| && events[r.value].venue == gate
    ensures r.Some? ==> forall j :: r.value < j < |events| ==> events[j].venue != gate
    ensures r.None? <==> forall j :: 0 <= j < |events| ==> events[j].venue != gate
    decreases |events|
  {
    if |events| == 0 then None
    else if events[|events| - 1].venue == gate then Some(|events| - 1)
    else NewestEventAt(events[..|events| - 1], gate)
  }

  /** The event consulted for a tap at `gate`. */
  function ActiveEvent(events: seq<Event>, gate: Gate): (r: Option<Event>)
    ensures r.Some? ==> r.value in events && r.value.venue == gate
    ensures r.None? <==> forall e :: e in events ==> e.venue != gate
  {
    match NewestEventAt(events, gate)
    case None => None
    case Some(i) => Some(events[i])
  }

  /** Appending an event at a gate makes it the one consulted there: every
      older event at that gate becomes unreachable. */
  lemma NewestEventShadowsOlder(older: seq<Event>, e: Event)
    ensures ActiveEvent(older + [e], e.venue) == Some(e)
  {
  }

  /** Events at other gates are never consulted. */
  lemma OtherGateEventsIgnored(events: seq<Event>, e: Event, gate: Gate)
    requires e.venue != gate
    ensures ActiveEvent(events + [e], gate) == ActiveEvent(events, gate)
  {
  }

  // ---------------------------------------------------------------------
  // The decision chain
  // ---------------------------------------------------------------------

  /** Both request fields are truthy. */
  predicate WellFormed(tap: Tap)
  {
    Truthy(tap.uid) && Truthy(tap.gate)
  }

  /** The time window check: both end points are inside. */
  predicate InWindow(e: Event, now: int)
  {
    e.start <= now <= e.end
  }

  /** Checks 3 to 6 pass: registered, an event at the gate, inside its
      window, and the student's declared venue is this gate. */
  predicate Admissible(s: Server, uid: Uid, gate: Gate, now: int)
  {
    && uid in s.students
    && ActiveEvent(s.events, gate).Some?
    && InWindow(ActiveEvent(s.events, gate).value, now)
    && s.students[uid].venue == Some(gate)
  }

  /** Every check of the chain passes, so the presence flips. */
  predicate Passes(s: Server, tap: Tap)
  {
    && WellFormed(tap)
    && !IsRecentlyScanned(s.cooldown, tap.uid.value, tap.now)
    && Admissible(s, tap.uid.value, tap.gate.value, tap.now)
  }

  /** The presence toggle: `OUT` becomes `IN`, anything else `OUT`. */
  function Toggle(p: string): (r: string)
    ensures r == In || r == Out
    ensures r == In <==> p == Out
  {
    if p == Out then In else Out
  }

  /** The denial reason of checks 3 to 6, in source order. */
  function Screen(s: Server, uid: Uid, gate: Gate, now: int): (r: Option<string>)
    ensures r.None? <==> Admissible(s, uid, gate, now)
    ensures r.Some? ==> r.value in {Unregistered, NoEvent, NotStarted, Ended, WrongHall}
  {
    if uid !in s.students then Some(Unregistered)
    else
      match ActiveEvent(s.events, gate)
      case None => Some(NoEvent)
      case Some(e) =>
        if now < e.start then Some(NotStarted)
        else if now > e.end then Some(Ended)
        else if s.students[uid].venue != Some(gate) then Some(WrongHall)
        else None
  }

  predicate DeniedWith(d: Decision, reason: string)
  {
    d.status == Denied && d.reason == reason
  }

  /** Deletes a waiting snapshot, if any. */
  function Discard(hasTempFile: bool): Snapshot
  {
    if hasTempFile then Deleted else NoSnapshot
  }

  /** processAttendance. `imageRequired` distinguishes the photo endpoint;
      `renameError` is the message of the exception the snapshot rename
      throws when no temporary file is there to rename. */
  function ProcessAttendance(s: Server, tap: Tap, imageRequired: bool, renameError: string): (o: Outcome)
    // the decision is stamped with the tap's time and credential
    ensures o.decision.timestamp == tap.now && o.decision.uid == tap.uid
    // the tap type is DENIED exactly when the status is not VERIFIED
    ensures o.decision.tapType == DeniedTap <==> o.decision.status != Verified
    // a missing credential or gate is a read error that touches nothing
    ensures !WellFormed(tap) ==>
              && DeniedWith(o.decision, ReadError)
              && o.decision.gate == tap.gate
              && o.decision.snapshot == Discard(tap.hasTempFile)
              && o.next == s
    // the cooldown is consulted before the roster, for any credential
    ensures WellFormed(tap) ==>
              (DeniedWith(o.decision, DoubleScan) <==> IsRecentlyScanned(s.cooldown, tap.uid.value, tap.now))
    // the double-scan return leaves an uploaded snapshot where it is
    ensures o.decision.snapshot == LeftBehind <==> tap.hasTempFile && DeniedWith(o.decision, DoubleScan)
    // every other denial is the first failing roster/event/window/venue check
    ensures WellFormed(tap) && !IsRecentlyScanned(s.cooldown, tap.uid.value, tap.now) ==>
              (o.decision.status == Denied <==> !Admissible(s, tap.uid.value, tap.gate.value, tap.now))
    // every decision but ERROR carries the tapped gate
    ensures o.decision.status != Error ==> o.decision.gate == tap.gate
    // no denial changes any state
    ensures o.decision.status == Denied ==> o.next == s
    // events and the log are read only
    ensures o.next.events == s.events && o.next.log == s.log
    // the presence flips exactly when every check passes, even if the
    // snapshot rename then fails
    ensures Passes(s, tap) ==>
              o.next.students == s.students[tap.uid.value := s.students[tap.uid.value].(presence := Toggle(s.students[tap.uid.value].presence))]
    ensures !Passes(s, tap) ==> o.next.students == s.students
    // ENTRY exactly when the stored presence was OUT
    ensures o.decision.status == Verified ==>
              && Passes(s, tap)
              && o.decision.reason == AccessGranted
              && o.decision.gate == tap.gate
              && (o.decision.tapType == Entry <==> s.students[tap.uid.value].presence == Out)
    // a failed rename is the only error: it reports the exception message
    // and loses the gate
    ensures o.decision.status == Error <==> Passes(s, tap) && imageRequired && !tap.hasTempFile
    ensures o.decision.status == Error ==> o.decision.reason == renameError && o.decision.gate == None
    // the cooldown is armed only by a verified photo scan
    ensures o.next.cooldown ==
              if o.decision.status == Verified && imageRequired then s.cooldown[tap.uid.value := tap.now]
              else s.cooldown
    // the snapshot is kept, under the credential and time, only then
    ensures o.decision.snapshot.Retained? <==> o.decision.status == Verified && imageRequired
    ensures o.decision.snapshot.Retained? ==> o.decision.snapshot == Retained(tap.uid.value, tap.now)
    ensures o.decision.snapshot == NoSnapshot <==> !tap.hasTempFile
  {
    if !WellFormed(tap) then
      Outcome(Decision(Denied, ReadError, DeniedTap, tap.uid, tap.gate, tap.now, Discard(tap.hasTempFile)), s)
    else
      var uid := tap.uid.value;
      var gate := tap.gate.value;
      if IsRecentlyScanned(s.cooldown, uid, tap.now) then
        var kept := if tap.hasTempFile then LeftBehind else NoSnapshot;
        Outcome(Decision(Denied, DoubleScan, DeniedTap, tap.uid, tap.gate, tap.now, kept), s)
      else
        match Screen(s, uid, gate, tap.now)
        case Some(reason) =>
          Outcome(Decision(Denied, reason, DeniedTap, tap.uid, tap.gate, tap.now, Discard(tap.hasTempFile)), s)
        case None =>
          var student := s.students[uid];
          var tapType := if student.presence == Out then Entry else Exit;
          var flipped := s.(students := s.students[uid := student.(presence := Toggle(student.presence))]);
          if !imageRequired then
            Outcome(Decision(Verified, AccessGranted, tapType, tap.uid, tap.gate, tap.now, Discard(tap.hasTempFile)), flipped)
          else if tap.hasTempFile then
            Outcome(Decision(Verified, AccessGranted, tapType, tap.uid, tap.gate, tap.now, Retained(uid, tap.now)),
                    flipped.(cooldown := flipped.cooldown[uid := tap.now]))
          else
            Outcome(Decision(Error, renameError, DeniedTap, tap.uid, None, tap.now, NoSnapshot), flipped)
  }

  // ---------------------------------------------------------------------
  // Check order
  // ---------------------------------------------------------------------

  /** One named check of the chain and whether it passes. */
  datatype Check = Check(passes: bool, reason: string)

  /** The reason of the first failing check of a list, if any fails. */
  function FirstFailure(checks: seq<Check>): (r: Option<string>)
    ensures r.None? <==> forall i :: 0 <= i < |checks| ==> checks[i].passes
    ensures r.Some? ==>
              exists i :: 0 <= i < |checks| && !checks[i].passes && checks[i].reason == r.value
                           && forall j :: 0 <= j < i ==> checks[j].passes
  {
    if |checks| == 0 then None
    else if !checks[0].passes then Some(checks[0].reason)
    else
      var rest := FirstFailure(checks[1..]);
      if rest.Some? then
        var i :| 0 <= i < |checks[1..]| && !checks[1..][i].passes && checks[1..][i].reason == rest.value
                 && forall j :: 0 <= j < i ==> checks[1..][j].passes;
        assert !checks[i + 1].passes && checks[i + 1].reason == rest.value;
        rest
      else rest
  }

  /** The chain written as the list of its seven checks, in the order the
      source evaluates them. A check whose input is missing because an
      earlier one failed is listed as passing. */
  function Chain(s: Server, tap: Tap): seq<Check>
  {
    var uid := if Truthy(tap.uid) then tap.uid.value else "";
    var gate := if Truthy(tap.gate) then tap.gate.value else "";
    var registered := uid in s.students;
    var event := ActiveEvent(s.events, gate);
    [ Check(WellFormed(tap), ReadError),
      Check(!IsRecentlyScanned(s.cooldown, uid, tap.now), DoubleScan),
      Check(registered, Unregistered),
      Check(event.Some?, NoEvent),
      Check(event.None? || event.value.start <= tap.now, NotStarted),
      Check(event.None? || tap.now <= event.value.end, Ended),
      Check(!registered || s.students[uid].venue == Some(gate), WrongHall) ]
  }

  /** A tap is denied exactly when some check of the chain fails, and then
      with the reason of the first failing one. So `now == start` and
      `now == end` both pass the window, and an ended event outranks a
      wrong hall. */
  lemma FirstFailingCheckWins(s: Server, tap: Tap, imageRequired: bool, renameError: string)
    ensures var d := ProcessAttendance(s, tap, imageRequired, renameError).decision;
            && (d.status == Denied <==> FirstFailure(Chain(s, tap)).Some?)
            && (d.status == Denied ==> d.reason == FirstFailure(Chain(s, tap)).value)
  {
    var c := Chain(s, tap);
    var d := ProcessAttendance(s, tap, imageRequired, renameError).decision;
    if !WellFormed(tap) {
      FirstFailureAt(c, 0);
    } else if IsRecentlyScanned(s.cooldown, tap.uid.value, tap.now) {
      FirstFailureAt(c, 1);
    } else if tap.uid.value !in s.students {
      FirstFailureAt(c, 2);
    } else if ActiveEvent(s.events, tap.gate.value).None? {
      FirstFailureAt(c, 3);
    } else if tap.now < ActiveEvent(s.events, tap.gate.value).value.start {
      FirstFailureAt(c, 4);
    } else if tap.now > ActiveEvent(s.events, tap.gate.value).value.end {
      FirstFailureAt(c, 5);
    } else if s.students[tap.uid.value].venue != tap.gate {
      FirstFailureAt(c, 6);
    } else {
      assert forall i :: 0 <= i < |c| ==> c[i].passes;
    }
  }

  /** The first failing check determines the reason. */
  lemma FirstFailureAt(checks: seq<Check>, k: nat)
    requires k < |checks| && !checks[k].passes
    requires forall j :: 0 <= j < k ==> checks[j].passes
    ensures FirstFailure(checks) == Some(checks[k].reason)
  {
  }

  // ---------------------------------------------------------------------
  // Two-tap properties
  // ---------------------------------------------------------------------

  /** After a verified photo scan at `at`, the same credential is refused as
      a double scan at any gate before `at + 15000`, and is no longer
      throttled from then on. */
  lemma CooldownBlocksReadmission(s: Server, first: Tap, second: Tap, renameError: string, imageRequired: bool)
    requires ProcessAttendance(s, first, true, renameError).decision.status == Verified
    requires WellFormed(second) && second.uid == first.uid
    ensures var s1 := ProcessAttendance(s, first, true, renameError).next;
            var d2 := ProcessAttendance(s1, second, imageRequired, renameError).decision;
            DeniedWith(d2, DoubleScan) <==> second.now < first.now + CooldownMs
  {
  }

  /** Two successive admits of one credential alternate ENTRY and EXIT,
      whatever presence value it started from. */
  lemma ConsecutiveAdmitsAlternate(s: Server, first: Tap, second: Tap, image1: bool, image2: bool, err: string)
    requires ProcessAttendance(s, first, image1, err).decision.status == Verified
    requires second.uid == first.uid
    requires ProcessAttendance(ProcessAttendance(s, first, image1, err).next, second, image2, err).decision.status == Verified
    ensures ProcessAttendance(s, first, image1, err).decision.tapType
            != ProcessAttendance(ProcessAttendance(s, first, image1, err).next, second, image2, err).decision.tapType
  {
  }

  /** A photo scan that passes every check but has no snapshot to rename
      ends in ERROR, yet the presence flip was already written and the
      cooldown is not armed. */
  lemma FailedRenameStillFlips(s: Server, tap: Tap, renameError: string)
    requires Passes(s, tap) && !tap.hasTempFile
    ensures var o := ProcessAttendance(s, tap, true, renameError);
            && o.decision.status == Error
            && o.next.students[tap.uid.value].presence == Toggle(s.students[tap.uid.value].presence)
            && o.next.cooldown == s.cooldown
  {
  }
}

=== FILE: common.dfy ===
/** Small shared vocabulary: optional values and JavaScript truthiness of
    request fields. */
module Common {

  /** A value that may be missing (`undefined`/`null` in the source). */
  datatype Option<+T> = None | Some(value: T)

  /** JavaScript truthiness of an optional string: `undefined`, `null` and
      the empty string are falsy, every other string is truthy. */
  predicate Truthy(o: Option<string>)
  {
    o.Some? && o.value != ""
  }

  /** `x || fallback` for an optional string. */
  function OrElse(o: Option<string>, fallback: string): (r: string)
    ensures Truthy(o) ==> r == o.value
    ensures !Truthy(o) ==> r == fallback
  {
    if Truthy(o) then o.value else fallback
  }
}

=== FILE: csv.dfy ===
/** Roster import of the event builder (App.js, handleCsvImport): after the
    CSV text has been parsed into rows keyed by trimmed, lower-cased header,
    the rows with a non-empty `uid` and `name` are kept, in order, and both
    values are trimmed. */
module CsvImport {
  import opened Common
  import opened Feed

  /** A parsed CSV row: header to cell text. A header missing from a short
      row is absent from the map. */
  type Row = map<string, string>

  /** The characters JavaScript's `trim` removes: white space and line
      terminators. */
  predicate IsSpace(c: char)
  {
    || c == '\t' || c == '\n' || c == '\U{000B}' || c == '\U{000C}' || c == '\r' || c == ' '
    || c == '\U{00A0}' || c == '\U{1680}' || ('\U{2000}' <= c <= '\U{200A}')
    || c == '\U{2028}' || c == '\U{2029}' || c == '\U{202F}' || c == '\U{205F}'
    || c == '\U{3000}' || c == '\U{FEFF}'
  }

  /** `s[..i]` and `s[j..]` are all white space. */
  predicate Margins(s: string, i: int, j: int)
  {
    && 0 <= i <= j <= |s|
    && (forall k :: 0 <= k < i ==> IsSpace(s[k]))
    && (forall k :: j <= k < |s| ==> IsSpace(s[k]))
  }

  /** Drops leading white space. */
  function TrimStart(s: string): (r: string)
    ensures |r| <= |s| && r == s[|s| - |r|..]
    ensures forall k :: 0 <= k < |s| - |r| ==> IsSpace(s[k])
    ensures r == [] || !IsSpace(r[0])
    decreases |s|
  {
    if |s| > 0 && IsSpace(s[0]) then TrimStart(s[1..]) else s
  }

  /** Drops trailing white space. */
  function TrimEnd(s: string): (r: string)
    ensures |r| <= |s| && r == s[..|r|]
    ensures forall k :: |r| <= k < |s| ==> IsSpace(s[k])
    ensures r == [] || !IsSpace(r[|r| - 1])
    decreases |s|
  {
    if |s| > 0 && IsSpace(s[|s| - 1]) then TrimEnd(s[..|s| - 1]) else s
  }

  /** String.prototype.trim. */
  function Trim(s: string): (r: string)
    ensures exists i, j :: Margins(s, i, j) && r == s[i..j]
    ensures r == [] || (!IsSpace(r[0]) && !IsSpace(r[|r| - 1]))
    ensures r == [] <==> forall k :: 0 <= k < |s| ==> IsSpace(s[k])
  {
    TrimBlank(s);
    TrimMiddle(s);
    TrimEnd(TrimStart(s))
  }

  /** Trimming both ends leaves nothing exactly when every character is
      white space. */
  lemma TrimBlank(s: string)
    ensures var r := TrimEnd(TrimStart(s));
            && (r != [] ==> r[0] == TrimStart(s)[0])
            && (r == [] <==> forall k :: 0 <= k < |s| ==> IsSpace(s[k]))
  {
  }

  /** Trimming keeps a contiguous middle of the input, with white space
      only on either side. */
  lemma TrimMiddle(s: string)
    ensures var r := TrimEnd(TrimStart(s));
            exists i, j :: Margins(s, i, j) && r == s[i..j]
  {
    var front := TrimStart(s);
    var i := |s| - |front|;
    assert forall k :: 0 <= k < i ==> IsSpace(s[k]);
    var r := TrimEnd(front);
    var j := i + |r|;
    assert forall k :: j <= k < |s| ==> IsSpace(s[k]) by {
      forall k | j <= k < |s| ensures IsSpace(s[k]) {
        assert s[k] == front[k - i];
      }
    }
    assert Margins(s, i, j);
    assert r == s[i..j] by {
      assert front == s[i..];
      assert r == front[..|r|];
    }
  }

  /** A trimmed string has nothing left to trim. */
  lemma TrimIdempotent(s: string)
    ensures Trim(Trim(s)) == Trim(s)
  {
    var t := Trim(s);
    if t != [] {
      assert TrimStart(t) == t;
      assert TrimEnd(t) == t;
    }
  }

  /** The row filter: both `uid` and `name` are present and non-empty
      before trimming. */
  predicate Keeps(row: Row)
  {
    "uid" in row && row["uid"] != "" && "name" in row && row["name"] != ""
  }

  /** The kept row as a roster entry, both values trimmed. */
  function Clean(row: Row): Registrant
    requires Keeps(row)
  {
    Registrant(Trim(row["uid"]), Trim(row["name"]))
  }

  /** Both values of a roster entry are already trimmed. */
  predicate Trimmed(x: Registrant)
  {
    Trim(x.uid) == x.uid && Trim(x.name) == x.name
  }

  /** Filter, then trim, preserving order. */
  function NormalizeRows(rows: seq<Row>): (r: seq<Registrant>)
    ensures |r| <= |rows|
    ensures forall k :: 0 <= k < |r| ==> Trimmed(r[k])
    decreases |rows|
  {
    if |rows| == 0 then []
    else
      assert forall i :: 1 <= i < |rows| ==> rows[i] == rows[1..][i - 1];
      Kept(rows[0]) + NormalizeRows(rows[1..])
  }

  /** What one row contributes. */
  function Kept(row: Row): (r: seq<Registrant>)
    ensures |r| <= 1
    ensures r == [] <==> !Keeps(row)
    ensures forall k :: 0 <= k < |r| ==> Trimmed(r[k])
  {
    if Keeps(row) then
      TrimIdempotent(row["uid"]);
      TrimIdempotent(row["name"]);
      [Clean(row)]
    else []
  }

  /** Normalisation works row by row: it distributes over concatenation, so
      kept rows keep their relative order. */
  lemma {:induction false} NormalizeConcat(a: seq<Row>, b: seq<Row>)
    ensures NormalizeRows(a + b) == NormalizeRows(a) + NormalizeRows(b)
    decreases |a|
  {
    if |a| == 0 {
      assert a + b == b;
    } else {
      var ab := a + b;
      assert ab[0] == a[0] && ab[1..] == a[1..] + b;
      NormalizeConcat(a[1..], b);
      calc {
        NormalizeRows(ab);
        Kept(a[0]) + NormalizeRows(a[1..] + b);
        Kept(a[0]) + (NormalizeRows(a[1..]) + NormalizeRows(b));
        (Kept(a[0]) + NormalizeRows(a[1..])) + NormalizeRows(b);
      }
    }
  }

  /** A single row yields its cleaned form exactly when it passes the
      filter. */
  lemma NormalizeOne(row: Row)
    ensures NormalizeRows([row]) == if Keeps(row) then [Clean(row)] else []
  {
  }

  /** Every kept row appears, cleaned, in the result. */
  lemma {:induction false} NormalizeKeepsAll(rows: seq<Row>)
    ensures forall row :: row in rows && Keeps(row) ==> Clean(row) in NormalizeRows(rows)
    decreases |rows|
  {
    if |rows| > 0 {
      var tail := rows[1..];
      NormalizeKeepsAll(tail);
      assert NormalizeRows(rows) == Kept(rows[0]) + NormalizeRows(tail);
      forall row | row in rows && Keeps(row) ensures Clean(row) in NormalizeRows(rows) {
        if row != rows[0] {
          assert row in tail;
        }
      }
    }
  }

  /** Every result row is the cleaned form of a kept row. */
  lemma {:induction false} NormalizeOnlyKept(rows: seq<Row>)
    ensures forall x :: x in NormalizeRows(rows) ==> exists row :: row in rows && Keeps(row) && Clean(row) == x
    decreases |rows|
  {
    if |rows| > 0 {
      var tail := rows[1..];
      NormalizeOnlyKept(tail);
      assert NormalizeRows(rows) == Kept(rows[0]) + NormalizeRows(tail);
      forall x | x in NormalizeRows(rows)
        ensures exists row :: row in rows && Keeps(row) && Clean(row) == x
      {
        if x in Kept(rows[0]) {
          assert rows[0] in rows && Keeps(rows[0]) && Clean(rows[0]) == x;
        } else {
          var row :| row in tail && Keeps(row) && Clean(row) == x;
          assert row in rows;
        }
      }
    }
  }

  /** Every kept row appears, cleaned, in the result, and every result row
      is the cleaned form of a kept row. */
  lemma NormalizeMembers(rows: seq<Row>)
    ensures forall row :: row in rows && Keeps(row) ==> Clean(row) in NormalizeRows(rows)
    ensures forall x :: x in NormalizeRows(rows) ==> exists row :: row in rows && Keeps(row) && Clean(row) == x
  {
    NormalizeKeepsAll(rows);
    NormalizeOnlyKept(rows);
  }

  /** Normalisation yields nothing exactly when no row passes the filter. */
  lemma NormalizeEmpty(rows: seq<Row>)
    ensures NormalizeRows(rows) == [] <==> forall row :: row in rows ==> !Keeps(row)
  {
  }

  /** The filter runs before trimming: a white-space-only credential passes
      it and is stored as the empty string. */
  lemma BlankUidSurvives(name: string)
    requires name != "" && !IsSpace(name[0]) && !IsSpace(name[|name| - 1])
    ensures NormalizeRows([map["uid" := " ", "name" := name]]) == [Registrant("", name)]
  {
  }

  /** The roster held by the builder after an import: an import that keeps
      no row leaves the previous roster in place. */
  function ImportCsv(current: Option<seq<Registrant>>, rows: seq<Row>): (r: Option<seq<Registrant>>)
    ensures (forall row :: row in rows ==> !Keeps(row)) ==> r == current
    ensures (exists row :: row in rows && Keeps(row)) ==>
              && r == Some(NormalizeRows(rows)) && |r.value| > 0
              && (forall row :: row in rows && Keeps(row) ==> Clean(row) in r.value)
              && (forall x :: x in r.value ==> Trimmed(x))
  {
    var normalized := NormalizeRows(rows);
    NormalizeMembers(rows);
    NormalizeEmpty(rows);
    if |normalized| > 0 then Some(normalized) else current
  }
}

=== FILE: database.dfy ===
/** The three document kinds of the attendance database (Event, Student,
    AttendanceLog), as immutable records. Times are integer milliseconds
    since the epoch. */
module Database {
  import opened Common

  type Uid = string
  type Gate = string

  /** Presence values written by the decision engine. The field itself is a
      free string, so any other value can also be stored. */
  const In: string := "IN"
  const Out: string := "OUT"

  /** Schema default of `currentExamStatus`. */
  const DefaultPresence: string := Out

  /** A registrant. `venue` is the declared `allowedExamVenueBSSID` and may be
      missing; `presence` is `currentExamStatus`. The credential id is the key
      of the roster map, which makes the unique index on `myKadUID` a
      property of the representation. */
  datatype Student = Student(
    name: string,
    photo: Option<string>,
    venue: Option<Gate>,
    presence: string)

  /** An event bound to one gate. `id` stands for the `eventId` label, which
      no decision reads: event creation stamps it `EVENT_<ms>` and the model
      keeps the millisecond stamp. No uniqueness is declared on `venue`. */
  datatype Event = Event(
    id: int,
    title: string,
    venue: Gate,
    start: int,
    end: int)

  datatype Status = Verified | Denied | Error

  datatype TapType = Entry | Exit | DeniedTap

  /** The JSON spelling of a status. */
  function StatusText(s: Status): (t: string)
    ensures t != ""
  {
    match s
    case Verified => "VERIFIED"
    case Denied => "DENIED"
    case Error => "ERROR"
  }

  /** One stored attendance record. The schema has no `tapType` field, so a
      tap type handed to `create` is not stored. A missing
      `tappedVenueBSSID` is `None`. */
  datatype LogEntry = LogEntry(
    uid: string,
    status: Status,
    reason: string,
    gate: Option<Gate>,
    timestamp: int)

  /** The roster lookup. The roster is a map, so a credential resolves to at
      most one student. */
  function FindStudent(students: map<Uid, Student>, uid: Uid): (r: Option<Student>)
    ensures r.Some? <==> uid in students
    ensures r.Some? ==> r.value == students[uid]
  {
    if uid in students then Some(students[uid]) else None
  }
}

=== FILE: feed.dfy ===
/** The server endpoints around the decision engine: the two scan
    endpoints, which each append one log entry, the latest-entry feed the
    viewer polls, and event creation with its roster upsert
    (backend/server.js). */
module Feed {
  import opened Common
  import opened Database
  import opened Access

  const UnknownUid: string := "UNKNOWN"
  const UnknownName: string := "Unknown"
  const PlaceholderPhoto: string := "https://via.placeholder.com/150"
  const EventLengthMs: int := 86400000

  // ---------------------------------------------------------------------
  // Scan endpoints
  // ---------------------------------------------------------------------

  /** The JSON body a scan endpoint answers with. */
  datatype Reply = Reply(status: Status, message: string)

  datatype ScanResult = ScanResult(reply: Reply, decision: Decision, next: Server)

  /** The log record written for a decision; a falsy credential is logged
      as `UNKNOWN`. */
  function LogOf(d: Decision): (e: LogEntry)
    ensures e.uid != ""
    ensures Truthy(d.uid) ==> e.uid == d.uid.value
    ensures !Truthy(d.uid) ==> e.uid == UnknownUid
    ensures e.status == d.status && e.reason == d.reason
    ensures e.gate == d.gate && e.timestamp == d.timestamp
  {
    LogEntry(OrElse(d.uid, UnknownUid), d.status, d.reason, d.gate, d.timestamp)
  }

  /** Runs the engine and appends its record to the log. */
  function Record(s: Server, tap: Tap, imageRequired: bool, renameError: string): (r: ScanResult)
    ensures r.decision == ProcessAttendance(s, tap, imageRequired, renameError).decision
    ensures r.reply == Reply(r.decision.status, r.decision.reason)
    ensures r.next.log == s.log + [LogOf(r.decision)]
    // everything but the log is the engine's next state
    ensures var o := ProcessAttendance(s, tap, imageRequired, renameError);
            && r.next.students == o.next.students
            && r.next.events == o.next.events
            && r.next.cooldown == o.next.cooldown
  {
    var o := ProcessAttendance(s, tap, imageRequired, renameError);
    ScanResult(Reply(o.decision.status, o.decision.reason), o.decision, o.next.(log := o.next.log + [LogOf(o.decision)]))
  }

  /** POST /api/attendance_check: a photo scan. */
  function AttendanceCheck(s: Server, uid: Option<string>, gate: Option<string>, now: int,
                           hasTempFile: bool, renameError: string): (r: ScanResult)
    // the engine decides a photo scan, and the reply is its status and reason
    ensures r.decision == ProcessAttendance(s, Tap(uid, gate, now, hasTempFile), true, renameError).decision
    ensures r.reply == Reply(r.decision.status, r.decision.reason)
    // exactly one record is appended and nothing before it changes
    ensures |r.next.log| == |s.log| + 1 && r.next.log[..|s.log|] == s.log
    // the record carries the decision, with UNKNOWN for a falsy credential
    ensures var e := r.next.log[|s.log|];
            && e.uid == OrElse(uid, UnknownUid)
            && e.status == r.reply.status && e.reason == r.reply.message
            && e.timestamp == now
            && e.gate == (if r.reply.status == Error then None else gate)
    // roster, events and cooldown move as the engine says
    ensures var o := ProcessAttendance(s, Tap(uid, gate, now, hasTempFile), true, renameError);
            r.next.students == o.next.students && r.next.events == s.events && r.next.cooldown == o.next.cooldown
  {
    Record(s, Tap(uid, gate, now, hasTempFile), true, renameError)
  }

  /** POST /api/gate_detection: a scan without a photo. It never arms the
      cooldown, never errs and never handles a snapshot. */
  function GateDetection(s: Server, uid: Option<string>, gate: Option<string>, now: int): (r: ScanResult)
    // the engine decides a scan without a photo, and the reply is its
    // status and reason
    ensures r.decision == ProcessAttendance(s, Tap(uid, gate, now, false), false, "").decision
    ensures r.reply == Reply(r.decision.status, r.decision.reason)
    ensures |r.next.log| == |s.log| + 1 && r.next.log[..|s.log|] == s.log
    ensures var e := r.next.log[|s.log|];
            && e.uid == OrElse(uid, UnknownUid)
            && e.status == r.reply.status && e.reason == r.reply.message
            && e.timestamp == now && e.gate == gate
    ensures r.next.cooldown == s.cooldown && r.next.events == s.events
    ensures r.reply.status != Error
    ensures r.decision.snapshot == NoSnapshot
    ensures r.next.students == ProcessAttendance(s, Tap(uid, gate, now, false), false, "").next.students
  {
    Record(s, Tap(uid, gate, now, false), false, "")
  }

  // ---------------------------------------------------------------------
  // Latest entry feed
  // ---------------------------------------------------------------------

  /** The log filter: a truthy gate query selects the entries stored with
      that gate, a falsy one selects every entry. */
  predicate Matches(e: LogEntry, query: Option<string>)
  {
    !Truthy(query) || e.gate == query
  }

  /** `i` is a newest entry selected by the query; among entries with the
      same newest time the model takes the one appended last. */
  predicate IsNewestMatching(log: seq<LogEntry>, query: Option<string>, i: int)
  {
    && 0 <= i < |log|
    && Matches(log[i], query)
    && (forall j :: 0 <= j < |log| && Matches(log[j], query) ==> log[j].timestamp <= log[i].timestamp)
    && (forall j :: i < j < |log| && Matches(log[j], query) ==> log[j].timestamp < log[i].timestamp)
  }

  /** The index the descending-time sort limited to one returns. */
  function NewestMatching(log: seq<LogEntry>, query: Option<string>): (r: Option<nat>)
    ensures r.Some? ==> IsNewestMatching(log, query, r.value)
    ensures r.None? <==> forall j :: 0 <= j < |log| ==> !Matches(log[j], query)
    decreases |log|
  {
    if |log| == 0 then None
    else
      var last := |log| - 1;
      var rest := NewestMatching(log[..last], query);
      assert forall j :: 0 <= j < last ==> log[..last][j] == log[j];
      if Matches(log[last], query) && (rest.None? || log[rest.value].timestamp <= log[last].timestamp) then Some(last)
      else rest
  }

  /** The enriched entry the feed answers with. */
  datatype FeedItem = FeedItem(
    uid: string,
    name: string,
    photo: Option<string>,
    status: Status,
    reason: string,
    timestamp: int)

  /** The join with the roster at read time: a missing student reads as
      name `Unknown` and no photo. */
  function Enrich(students: map<Uid, Student>, e: LogEntry): (f: FeedItem)
    ensures f.uid == e.uid && f.status == e.status && f.reason == e.reason && f.timestamp == e.timestamp
    ensures e.uid in students ==> f.name == students[e.uid].name && f.photo == students[e.uid].photo
    ensures e.uid !in students ==> f.name == UnknownName && f.photo == None
  {
    match FindStudent(students, e.uid)
    case Some(st) => FeedItem(e.uid, st.name, st.photo, e.status, e.reason, e.timestamp)
    case None => FeedItem(e.uid, UnknownName, None, e.status, e.reason, e.timestamp)
  }

  /** GET /api/attendance/latest. */
  function Latest(s: Server, query: Option<string>): (r: Option<FeedItem>)
    ensures r.None? <==> forall j :: 0 <= j < |s.log| ==> !Matches(s.log[j], query)
    ensures r.Some? ==> exists i :: IsNewestMatching(s.log, query, i) && r.value == Enrich(s.students, s.log[i])
  {
    match NewestMatching(s.log, query)
    case None => None
    case Some(i) => Some(Enrich(s.students, s.log[i]))
  }

  /** A gate query never answers with an entry logged at another gate. */
  lemma LatestStaysAtGate(s: Server, gate: string)
    requires gate != ""
    ensures var r := NewestMatching(s.log, Some(gate));
            r.Some? ==> s.log[r.value].gate == Some(gate)
  {
  }

  /** A scan whose time is not older than anything logged is what the next
      poll of its gate sees, unless it ended in ERROR: that record has no
      gate and only an unfiltered query can return it. */
  lemma LatestAfterScan(s: Server, uid: Option<string>, gate: string, now: int, hasTempFile: bool, renameError: string)
    requires gate != ""
    requires forall j :: 0 <= j < |s.log| ==> s.log[j].timestamp <= now
    ensures var r := AttendanceCheck(s, uid, Some(gate), now, hasTempFile, renameError);
            var e := r.next.log[|s.log|];
            && (r.reply.status != Error ==> Latest(r.next, Some(gate)) == Some(Enrich(r.next.students, e)))
            && (r.reply.status == Error ==> NewestMatching(r.next.log, Some(gate)) == NewestMatching(s.log, Some(gate)))
            && Latest(r.next, None) == Some(Enrich(r.next.students, e))
  {
  }

  // ---------------------------------------------------------------------
  // Event creation
  // ---------------------------------------------------------------------

  /** One registrant of a new event's roster. */
  datatype Registrant = Registrant(uid: string, name: string)

  datatype CreateReply = MissingFields | Created(count: nat)

  datatype CreateResult = CreateResult(reply: CreateReply, next: Server)

  /** The credentials of a roster. */
  function UidsOf(rows: seq<Registrant>): set<Uid>
  {
    set i | 0 <= i < |rows| :: rows[i].uid
  }

  /** The upsert of one registrant. Of the written fields only `name`,
      `myKadUID` and `officialPhotoPath` are declared; the venue binding and
      presence are written under undeclared names and dropped, so an
      existing student keeps its venue and presence, and a new one gets no
      venue and the default presence `OUT`. */
  function Upsert(students: map<Uid, Student>, row: Registrant): (r: map<Uid, Student>)
    ensures r.Keys == students.Keys + {row.uid}
    ensures r[row.uid].name == row.name && r[row.uid].photo == Some(PlaceholderPhoto)
    ensures row.uid in students ==>
              r[row.uid].venue == students[row.uid].venue && r[row.uid].presence == students[row.uid].presence
    ensures row.uid !in students ==> r[row.uid].venue == None && r[row.uid].presence == DefaultPresence
    ensures forall u :: u in students && u != row.uid ==> r[u] == students[u]
  {
    var updated :=
      if row.uid in students then students[row.uid].(name := row.name, photo := Some(PlaceholderPhoto))
      else Student(row.name, Some(PlaceholderPhoto), None, DefaultPresence);
    students[row.uid := updated]
  }

  /** `rows[i]` is the last row of the roster for credential `u`. */
  predicate LastRowFor(rows: seq<Registrant>, u: Uid, i: int)
  {
    0 <= i < |rows| && rows[i].uid == u && forall j :: i < j < |rows| ==> rows[j].uid != u
  }

  /** Every credential of the roster holds the placeholder photo and the
      name of its last row. */
  ghost predicate RosterWritten(rows: seq<Registrant>, r: map<Uid, Student>)
  {
    forall u :: u in UidsOf(rows) ==>
      && u in r && r[u].photo == Some(PlaceholderPhoto)
      && exists i :: LastRowFor(rows, u, i) && r[u].name == rows[i].name
  }

  /** The upserts of a roster, in order: a credential listed several times
      ends with the name of its last row. */
  function UpsertAll(students: map<Uid, Student>, rows: seq<Registrant>): (r: map<Uid, Student>)
    ensures r.Keys == students.Keys + UidsOf(rows)
    ensures RosterWritten(rows, r)
    ensures forall u :: u in students ==> r[u].venue == students[u].venue && r[u].presence == students[u].presence
    ensures forall u :: u in r && u !in students ==> r[u].venue == None && r[u].presence == DefaultPresence
    ensures forall u :: u in students && u !in UidsOf(rows) ==> r[u] == students[u]
    decreases |rows|
  {
    if |rows| == 0 then students
    else
      var up := Upsert(students, rows[0]);
      var r := UpsertAll(up, rows[1..]);
      UidsOfCons(rows);
      UpsertStep(students, rows, up, r);
      LastRowStep(rows, r);
      r
  }

  /** The bindings of one upsert followed by the upserts of the rest. */
  lemma UpsertStep(students: map<Uid, Student>, rows: seq<Registrant>, up: map<Uid, Student>, r: map<Uid, Student>)
    requires |rows| > 0 && up == Upsert(students, rows[0])
    requires UidsOf(rows) == {rows[0].uid} + UidsOf(rows[1..])
    requires r.Keys == up.Keys + UidsOf(rows[1..])
    requires forall u :: u in up ==> r[u].venue == up[u].venue && r[u].presence == up[u].presence
    requires forall u :: u in r && u !in up ==> r[u].venue == None && r[u].presence == DefaultPresence
    requires forall u :: u in up && u !in UidsOf(rows[1..]) ==> r[u] == up[u]
    ensures r.Keys == students.Keys + UidsOf(rows)
    ensures forall u :: u in students ==> r[u].venue == students[u].venue && r[u].presence == students[u].presence
    ensures forall u :: u in r && u !in students ==> r[u].venue == None && r[u].presence == DefaultPresence
    ensures forall u :: u in students && u !in UidsOf(rows) ==> r[u] == students[u]
    ensures rows[0].uid !in UidsOf(rows[1..]) ==>
              r[rows[0].uid].photo == Some(PlaceholderPhoto) && r[rows[0].uid].name == rows[0].name
  {
  }

  /** A roster's credentials are its head's and its tail's. */
  lemma UidsOfCons(rows: seq<Registrant>)
    requires |rows| > 0
    ensures UidsOf(rows) == {rows[0].uid} + UidsOf(rows[1..])
  {
    forall u | u in UidsOf(rows) ensures u in {rows[0].uid} + UidsOf(rows[1..]) {
      var i :| 0 <= i < |rows| && rows[i].uid == u;
      if i > 0 { assert rows[1..][i - 1].uid == u; }
    }
  }

  /** A roster's last rows: those of its tail, and the head for a
      credential the tail does not list again. */
  lemma LastRowStep(rows: seq<Registrant>, r: map<Uid, Student>)
    requires |rows| > 0 && UidsOf(rows) == {rows[0].uid} + UidsOf(rows[1..])
    requires RosterWritten(rows[1..], r)
    requires rows[0].uid !in UidsOf(rows[1..]) ==>
               && rows[0].uid in r && r[rows[0].uid].photo == Some(PlaceholderPhoto)
               && r[rows[0].uid].name == rows[0].name
    ensures RosterWritten(rows, r)
  {
    forall u | u in UidsOf(rows)
      ensures u in r && r[u].photo == Some(PlaceholderPhoto)
      ensures exists i :: LastRowFor(rows, u, i) && r[u].name == rows[i].name
    {
      if u in UidsOf(rows[1..]) {
        var i :| LastRowFor(rows[1..], u, i) && r[u].name == rows[1..][i].name;
        assert LastRowFor(rows, u, i + 1);
      } else {
        forall j | 0 < j < |rows| ensures rows[j].uid != u {
          assert rows[1..][j - 1] == rows[j];
          assert rows[1..][j - 1].uid in UidsOf(rows[1..]);
        }
        assert LastRowFor(rows, u, 0);
      }
    }
  }

  /** POST /api/events. A falsy title or venue, or no roster at all, is
      refused before anything is written; an empty roster is accepted.
      The event's window is the 24 hours from its creation. */
  function CreateEvent(s: Server, title: Option<string>, venue: Option<string>,
                       roster: Option<seq<Registrant>>, now: int): (r: CreateResult)
    ensures r.reply == MissingFields <==> !Truthy(title) || !Truthy(venue) || roster.None?
    ensures r.reply == MissingFields ==> r.next == s
    ensures r.reply.Created? ==>
              && r.reply.count == |roster.value|
              && r.next.events == s.events + [Event(now, title.value, venue.value, now, now + EventLengthMs)]
              && r.next.students.Keys == s.students.Keys + UidsOf(roster.value)
              && (forall u :: u in s.students ==>
                    && r.next.students[u].venue == s.students[u].venue
                    && r.next.students[u].presence == s.students[u].presence)
              && (forall u :: u in r.next.students && u !in s.students ==>
                    r.next.students[u].venue == None && r.next.students[u].presence == DefaultPresence)
              && (forall u :: u in s.students && u !in UidsOf(roster.value) ==> r.next.students[u] == s.students[u])
              && RosterWritten(roster.value, r.next.students)
    ensures r.next.cooldown == s.cooldown && r.next.log == s.log
  {
    if !Truthy(title) || !Truthy(venue) || roster.None? then CreateResult(MissingFields, s)
    else
      var event := Event(now, title.value, venue.value, now, now + EventLengthMs);
      CreateResult(Created(|roster.value|),
                   s.(events := s.events + [event], students := UpsertAll(s.students, roster.value)))
  }

  /** A credential first registered through event creation has no venue
      binding, so none of its taps is ever verified. */
  lemma FreshRegistrantNeverAdmitted(s: Server, title: Option<string>, venue: Option<string>,
                                     roster: seq<Registrant>, now: int, tap: Tap, imageRequired: bool, err: string)
    requires CreateEvent(s, title, venue, Some(roster), now).reply.Created?
    requires Truthy(tap.uid) && tap.uid.value !in s.students && tap.uid.value in UidsOf(roster)
    ensures var s1 := CreateEvent(s, title, venue, Some(roster), now).next;
            ProcessAttendance(s1, tap, imageRequired, err).decision.status == Denied
  {
  }
}

=== FILE: scenarios.dfy ===
/** Concrete runs over the demonstration roster of the repository's seed
    script: two students bound to hall A, one to tent 1, a three-hour exam
    at hall A and a one-day relief event at tent 1, both starting at `t0`. */
module Scenarios {
  import opened Common
  import opened Database
  import opened Access
  import opened Feed

  const HallA: string := "ESP32_HALL_A"
  const Tent1: string := "ESP32_TENT_1"
  const Ali: string := "A1B2C3D4"
  const Siti: string := "E5F6G7H8"
  const John: string := "11223344"

  function Seeded(t0: int): (s: Server)
    ensures s.students.Keys == {Ali, Siti, John}
    ensures |s.events| == 2 && s.cooldown == map[] && s.log == []
  {
    Server(
      map[
        Ali := Student("Ali bin Abu", Some("https://randomuser.me/api/portraits/men/32.jpg"), Some(HallA), Out),
        Siti := Student("Siti Sarah", Some("https://randomuser.me/api/portraits/women/44.jpg"), Some(HallA), Out),
        John := Student("John Doe (Victim)", Some("https://randomuser.me/api/portraits/men/11.jpg"), Some(Tent1), Out)],
      // the seed labels these EVT_001 and RELIEF_001; the labels are never read
      [ Event(1, "Calculus Final 101", HallA, t0, t0 + 3600000 * 3),
        Event(2, "Flood Relief Center: KL", Tent1, t0, t0 + 86400000) ],
      map[],
      [])
  }

  /** A millisecond before the exam it has not started, a millisecond in
      Ali enters, and a millisecond after its end it has ended. */
  lemma TimeWindowScenario(t0: int)
    requires t0 > CooldownMs
    ensures DeniedWith(GateDetection(Seeded(t0), Some(Ali), Some(HallA), t0 - 1).decision, NotStarted)
    ensures var d := GateDetection(Seeded(t0), Some(Ali), Some(HallA), t0 + 1).decision;
            d.status == Verified && d.tapType == Entry
    ensures DeniedWith(GateDetection(Seeded(t0), Some(Ali), Some(HallA), t0 + 3600000 * 3 + 1).decision, Ended)
  {
  }

  /** A tent-1 registrant at hall A is in the wrong hall, even inside the
      hall's exam window. */
  lemma WrongHallScenario(t0: int)
    requires t0 > CooldownMs
    ensures DeniedWith(GateDetection(Seeded(t0), Some(John), Some(HallA), t0 + 1).decision, WrongHall)
  {
  }

  /** An unknown card is refused and logged under its own id. */
  lemma UnregisteredScenario(t0: int)
    requires t0 > CooldownMs
    ensures var r := GateDetection(Seeded(t0), Some("ZZZZ"), Some(HallA), t0 + 1);
            && DeniedWith(r.decision, Unregistered)
            && r.next.log == [LogEntry("ZZZZ", Denied, Unregistered, Some(HallA), t0 + 1)]
  {
  }

  /** Presence scans arm no cooldown: Ali enters, then exits a second
      later, and the feed shows the exit. */
  lemma EntryThenExitScenario(t0: int)
    requires t0 > CooldownMs
    ensures var r1 := GateDetection(Seeded(t0), Some(Ali), Some(HallA), t0 + 1);
            var r2 := GateDetection(r1.next, Some(Ali), Some(HallA), t0 + 1001);
            && r1.decision.tapType == Entry && r2.decision.tapType == Exit
            && r2.next.students[Ali].presence == Out
            && Latest(r2.next, Some(HallA)) == Some(FeedItem(Ali, "Ali bin Abu",
                 Some("https://randomuser.me/api/portraits/men/32.jpg"), Verified, AccessGranted, t0 + 1001))
  {
    var r1 := GateDetection(Seeded(t0), Some(Ali), Some(HallA), t0 + 1);
    var r2 := GateDetection(r1.next, Some(Ali), Some(HallA), t0 + 1001);
    assert r2.next.log[1].timestamp == t0 + 1001;
    assert IsNewestMatching(r2.next.log, Some(HallA), 1);
  }

  /** A photo scan arms the cooldown: a second photo scan ten seconds later
      is a double scan, even at the tent. */
  lemma PhotoCooldownScenario(t0: int, err: string)
    requires t0 > CooldownMs
    ensures var r1 := AttendanceCheck(Seeded(t0), Some(Ali), Some(HallA), t0 + 1, true, err);
            var r2 := AttendanceCheck(r1.next, Some(Ali), Some(Tent1), t0 + 10001, true, err);
            && r1.reply == Reply(Verified, AccessGranted)
            && r2.reply == Reply(Denied, DoubleScan)
            && r2.decision.snapshot == LeftBehind
  {
  }
}

=== FILE: traces.dfy ===
/** Sequences of server requests: what holds across any interleaving of
    photo scans, presence scans and event creations, handled one at a
    time. */
module ServerTraces {
  import opened Common
  import opened Database
  import opened Access
  import opened Feed

  datatype Request =
    | PhotoScan(uid: Option<string>, gate: Option<string>, now: int, hasTempFile: bool, renameError: string)
    | PresenceScan(uid: Option<string>, gate: Option<string>, now: int)
    | NewEvent(title: Option<string>, venue: Option<string>, roster: Option<seq<Registrant>>, now: int)

  /** The state after one request. */
  function Apply(s: Server, req: Request): Server
  {
    match req
    case PhotoScan(uid, gate, now, hasTempFile, renameError) =>
      AttendanceCheck(s, uid, gate, now, hasTempFile, renameError).next
    case PresenceScan(uid, gate, now) => GateDetection(s, uid, gate, now).next
    case NewEvent(title, venue, roster, now) => CreateEvent(s, title, venue, roster, now).next
  }

  /** The state after a sequence of requests, oldest first. */
  function Run(s: Server, reqs: seq<Request>): Server
    decreases |reqs|
  {
    if |reqs| == 0 then s else Run(Apply(s, reqs[0]), reqs[1..])
  }

  /** The number of scan requests in a sequence. */
  function ScanCount(reqs: seq<Request>): nat
    decreases |reqs|
  {
    if |reqs| == 0 then 0
    else (if reqs[0].NewEvent? then 0 else 1) + ScanCount(reqs[1..])
  }

  /** The log is append-only and grows by exactly one record per scan. */
  lemma {:induction false} LogGrowsByScans(s: Server, reqs: seq<Request>)
    ensures |Run(s, reqs).log| == |s.log| + ScanCount(reqs)
    ensures Run(s, reqs).log[..|s.log|] == s.log
    decreases |reqs|
  {
    if |reqs| > 0 {
      var s1 := Apply(s, reqs[0]);
      LogGrowsByScans(s1, reqs[1..]);
      assert s1.log[..|s.log|] == s.log;
      assert Run(s, reqs).log[..|s1.log|][..|s.log|] == Run(s, reqs).log[..|s.log|];
    }
  }

  /** The tap a scan request hands to the engine. */
  function TapOf(req: Request): Tap
    requires !req.NewEvent?
  {
    match req
    case PhotoScan(uid, gate, now, hasTempFile, _) => Tap(uid, gate, now, hasTempFile)
    case PresenceScan(uid, gate, now) => Tap(uid, gate, now, false)
  }

  /** The request is a scan of credential `u` that passes every check. */
  predicate AdmitsAt(s: Server, req: Request, u: Uid)
  {
    !req.NewEvent? && TapOf(req).uid == Some(u) && Passes(s, TapOf(req))
  }

  /** How many requests of a sequence are scans of `u` passing every check,
      each judged in the state it meets. */
  function Admits(s: Server, reqs: seq<Request>, u: Uid): nat
    decreases |reqs|
  {
    if |reqs| == 0 then 0
    else (if AdmitsAt(s, reqs[0], u) then 1 else 0) + Admits(Apply(s, reqs[0]), reqs[1..], u)
  }

  /** `n` presence toggles. */
  function ToggleTimes(p: string, n: nat): string
    decreases n
  {
    if n == 0 then p else ToggleTimes(Toggle(p), n - 1)
  }

  /** One request toggles the presence of `u` once if it admits `u`, and
      otherwise leaves it alone. A registered student stays registered. */
  lemma ApplyPresence(s: Server, req: Request, u: Uid)
    requires u in s.students
    ensures u in Apply(s, req).students
    ensures Apply(s, req).students[u].presence ==
            if AdmitsAt(s, req, u) then Toggle(s.students[u].presence) else s.students[u].presence
  {
  }

  /** A registered student's presence changes only by the toggles of the
      scans that pass every check, including photo scans whose snapshot
      rename then fails. */
  lemma {:induction false} PresenceFollowsAdmits(s: Server, reqs: seq<Request>, u: Uid)
    requires u in s.students
    ensures u in Run(s, reqs).students
    ensures Run(s, reqs).students[u].presence == ToggleTimes(s.students[u].presence, Admits(s, reqs, u))
    decreases |reqs|
  {
    if |reqs| > 0 {
      var s1 := Apply(s, reqs[0]);
      ApplyPresence(s, reqs[0], u);
      PresenceFollowsAdmits(s1, reqs[1..], u);
      var p := s.students[u].presence;
      var n := Admits(s1, reqs[1..], u);
      assert Run(s, reqs) == Run(s1, reqs[1..]);
      assert Run(s, reqs).students[u].presence == ToggleTimes(s1.students[u].presence, n);
      if AdmitsAt(s, reqs[0], u) {
        assert s1.students[u].presence == Toggle(p);
        assert Admits(s, reqs, u) == n + 1;
        assert ToggleTimes(p, n + 1) == ToggleTimes(Toggle(p), n);
      } else {
        assert s1.students[u].presence == p;
        assert Admits(s, reqs, u) == n;
      }
    }
  }

  /** From `IN` or `OUT`, an even number of toggles is the identity and an
      odd number swaps. */
  lemma {:induction false} ToggleParity(p: string, n: nat)
    requires p == In || p == Out
    ensures ToggleTimes(p, n) == if n % 2 == 0 then p else Toggle(p)
    decreases n
  {
    if n > 0 {
      ToggleParity(Toggle(p), n - 1);
    }
  }

  /** The state invariant: only registered credentials are armed, and every
      presence is `IN` or `OUT`. */
  predicate Consistent(s: Server)
  {
    && s.cooldown.Keys <= s.students.Keys
    && forall u :: u in s.students ==> s.students[u].presence == In || s.students[u].presence == Out
  }

  /** Every request keeps the state consistent. */
  lemma ApplyConsistent(s: Server, req: Request)
    requires Consistent(s)
    ensures Consistent(Apply(s, req))
  {
  }

  lemma {:induction false} RunConsistent(s: Server, reqs: seq<Request>)
    requires Consistent(s)
    ensures Consistent(Run(s, reqs))
    decreases |reqs|
  {
    if |reqs| > 0 {
      ApplyConsistent(s, reqs[0]);
      RunConsistent(Apply(s, reqs[0]), reqs[1..]);
    }
  }
}

=== FILE: viewer.dfy ===
/** The gate viewer of the mobile app (App.js, ScannerPage): it polls the
    latest-entry feed of its gate, shows each newer entry once, with a
    two-phase presentation for verified taps, and clears itself five seconds
    after each accepted entry.

    Timers are explicit: the phase timers started for verified entries are
    never stored or cancelled, so they are kept as a first-in first-out
    list of due times; the single reset timer is replaced on every accepted
    entry and cancelled when the event changes. A timer stimulus that
    arrives before the timer's due time does nothing. */
module Viewer {
  import opened Common
  import opened Database
  import opened Feed

  const PhaseDelayMs: int := 1000
  const ResetDelayMs: int := 5000

  const AligningMessage: string := "ID Valid. Aligning Face..."
  const FaceVerifiedMessage: string := "\U{2705} FACE VERIFIED"
  const DeniedPrefix: string := "ACCESS DENIED:\n"

  datatype Kind = Warning | Success | Failure

  /** The status banner (`scanResult`). */
  datatype Banner = Banner(kind: Kind, message: string)

  /** The identity details (`matchDetails`); the display time string is not
      modelled. */
  datatype Details = Details(name: string, uid: string, photo: Option<string>, status: Status)

  /** The viewer state: the last accepted time, what is on screen, the
      `verified` frame flag, the due times of pending phase timers in firing
      order, and the due time of the pending reset timer. */
  datatype View = View(
    lastSeen: int,
    banner: Option<Banner>,
    details: Option<Details>,
    verified: bool,
    phaseDue: seq<int>,
    resetDue: Option<int>)

  /** One poll's outcome: a non-ok HTTP status, a body (the entry or
      `null`), or an exception while fetching or parsing. */
  datatype Response = NotOk | Body(item: Option<FeedItem>) | Thrown

  /** What the viewer reacts to, each with the device clock reading. */
  datatype Stimulus =
    | Poll(now: int, response: Response)
    | PhaseTimer(now: int)
    | ResetTimer(now: int)
    | EventChanged(now: int)

  /** The screen right after opening the scanner page. */
  function Mount(now: int): (v: View)
    ensures v.lastSeen == now && v.banner.None? && v.details.None? && !v.verified
    ensures v.phaseDue == [] && v.resetDue.None?
  {
    View(now, None, None, false, [], None)
  }

  /** Identity details are shown only during the warning and success
      phases. */
  predicate ShowDetails(v: View)
  {
    v.banner.Some? && (v.banner.value.kind == Success || v.banner.value.kind == Warning)
  }

  /** The identity photo is on screen. The source prefixes every photo
      reference into a non-empty address, so any details carry one. */
  predicate PhotoShown(v: View)
  {
    ShowDetails(v) && v.details.Some?
  }

  /** The text after the denial prefix: the reason, or the status when the
      reason is empty. */
  function DenialText(item: FeedItem): (t: string)
    ensures t != ""
    ensures item.reason != "" ==> t == item.reason
    ensures item.reason == "" ==> t == StatusText(item.status)
  {
    if item.reason != "" then item.reason else StatusText(item.status)
  }

  /** checkServerSilent: only an entry strictly newer than the last
      accepted time is shown. */
  function OnPoll(v: View, now: int, response: Response): (w: View)
    // the state changes exactly when a strictly newer entry arrives;
    // errors, non-ok answers and null bodies change nothing
    ensures w != v <==> response.Body? && response.item.Some? && response.item.value.timestamp > v.lastSeen
    ensures w.lastSeen >= v.lastSeen
    ensures w != v ==>
              var item := response.item.value;
              && w.lastSeen == item.timestamp
              && w.details == Some(Details(item.name, item.uid, item.photo, item.status))
              && !w.verified
              && w.resetDue == Some(now + ResetDelayMs)
    // a verified entry starts the aligning phase and one more phase timer
    ensures w != v && response.item.value.status == Verified ==>
              && w.banner == Some(Banner(Warning, AligningMessage))
              && w.phaseDue == v.phaseDue + [now + PhaseDelayMs]
              && ShowDetails(w)
    // any other entry is shown as a denial at once, without its details
    ensures w != v && response.item.value.status != Verified ==>
              && w.banner == Some(Banner(Failure, DeniedPrefix + DenialText(response.item.value)))
              && w.phaseDue == v.phaseDue
              && !ShowDetails(w)
  {
    if response.Body? && response.item.Some? && response.item.value.timestamp > v.lastSeen then
      var item := response.item.value;
      var shown := v.(lastSeen := item.timestamp,
                      details := Some(Details(item.name, item.uid, item.photo, item.status)),
                      verified := false,
                      resetDue := Some(now + ResetDelayMs));
      if item.status == Verified then
        shown.(banner := Some(Banner(Warning, AligningMessage)), phaseDue := v.phaseDue + [now + PhaseDelayMs])
      else
        shown.(banner := Some(Banner(Failure, DeniedPrefix + DenialText(item))))
    else v
  }

  /** One stimulus. */
  function Step(v: View, e: Stimulus): (w: View)
    // a due phase timer turns the screen to success with the frame on and
    // consumes the oldest timer; it is never cancelled, so it fires over
    // whatever is shown
    ensures e.PhaseTimer? && |v.phaseDue| > 0 && v.phaseDue[0] <= e.now ==>
              && w.banner == Some(Banner(Success, FaceVerifiedMessage)) && w.verified
              && w.phaseDue == v.phaseDue[1..]
              && w.details == v.details && w.lastSeen == v.lastSeen && w.resetDue == v.resetDue
    // a due reset clears the screen and re-arms the last seen time to the clock
    ensures e.ResetTimer? && v.resetDue.Some? && v.resetDue.value <= e.now ==>
              && w.banner.None? && w.details.None? && !w.verified
              && w.lastSeen == e.now && w.resetDue.None? && w.phaseDue == v.phaseDue
    // a timer that is not due yet changes nothing
    ensures e.PhaseTimer? && !(|v.phaseDue| > 0 && v.phaseDue[0] <= e.now) ==> w == v
    ensures e.ResetTimer? && !(v.resetDue.Some? && v.resetDue.value <= e.now) ==> w == v
    // a new event meets a freshly mounted page
    ensures e.EventChanged? ==> w == Mount(e.now)
    // a poll is handled by checkServerSilent
    ensures e.Poll? ==> w == OnPoll(v, e.now, e.response)
  {
    match e
    case Poll(now, response) => OnPoll(v, now, response)
    case PhaseTimer(now) =>
      if |v.phaseDue| > 0 && v.phaseDue[0] <= now then
        v.(banner := Some(Banner(Success, FaceVerifiedMessage)), verified := true, phaseDue := v.phaseDue[1..])
      else v
    case ResetTimer(now) =>
      if v.resetDue.Some? && v.resetDue.value <= now then
        v.(banner := None, details := None, verified := false, lastSeen := now, resetDue := None)
      else v
    // events are chosen on the home page, so the scanner page mounts afresh
    case EventChanged(now) => Mount(now)
  }

  function Run(v: View, es: seq<Stimulus>): View
    decreases |es|
  {
    if |es| == 0 then v else Run(Step(v, es[0]), es[1..])
  }

  /** The entry time a stimulus makes the viewer accept, if any. */
  function AcceptedAt(v: View, e: Stimulus): Option<int>
  {
    if e.Poll? && e.response.Body? && e.response.item.Some? && e.response.item.value.timestamp > v.lastSeen
    then Some(e.response.item.value.timestamp)
    else None
  }

  /** The entry times shown along a run, in order. */
  function Shown(v: View, es: seq<Stimulus>): seq<int>
    decreases |es|
  {
    if |es| == 0 then []
    else
      (if AcceptedAt(v, es[0]).Some? then [AcceptedAt(v, es[0]).value] else [])
      + Shown(Step(v, es[0]), es[1..])
  }

  // ---------------------------------------------------------------------
  // Single-stimulus properties
  // ---------------------------------------------------------------------

  /** The event is chosen on the home page, so a new event always meets a
      freshly mounted scanner page: what was shown is forgotten, the last
      seen time is the clock, and no timer of the old page reaches the new
      one (the reset timer is cleared, and a pending phase timer only writes
      to the unmounted page). */
  lemma EventChangeResets(v: View, now: int)
    ensures var w := Step(v, EventChanged(now));
            && w.lastSeen == now && w.banner.None? && w.details.None? && !w.verified
            && w.resetDue.None? && w.phaseDue == []
            && Step(w, PhaseTimer(now + PhaseDelayMs)) == w
  {
  }

  /** A verified entry shows the aligning warning first, and the success
      banner with the green frame once its phase timer is due. */
  lemma VerifiedTwoPhase(v: View, now: int, item: FeedItem, later: int)
    requires v.phaseDue == []
    requires item.status == Verified && item.timestamp > v.lastSeen
    ensures var w1 := Step(v, Poll(now, Body(Some(item))));
            && w1.banner == Some(Banner(Warning, AligningMessage)) && !w1.verified && ShowDetails(w1)
            && (later < now + PhaseDelayMs ==> Step(w1, PhaseTimer(later)) == w1)
            && (later >= now + PhaseDelayMs ==>
                  var w2 := Step(w1, PhaseTimer(later));
                  w2.banner == Some(Banner(Success, FaceVerifiedMessage)) && w2.verified && PhotoShown(w2))
  {
  }

  /** Five seconds after an accepted entry the screen clears and the last
      seen time becomes the clock reading, so no entry stamped at or before
      that reading is shown by the next poll. */
  lemma AutoClear(v: View, now: int, item: FeedItem, later: int, again: FeedItem)
    requires item.timestamp > v.lastSeen
    requires later >= now + ResetDelayMs
    requires again.timestamp <= later
    ensures var w := Step(Step(v, Poll(now, Body(Some(item)))), ResetTimer(later));
            && w.banner.None? && w.details.None? && !w.verified && w.lastSeen == later
            && Step(w, Poll(later, Body(Some(again)))) == w
  {
  }

  // ---------------------------------------------------------------------
  // Invariant
  // ---------------------------------------------------------------------

  /** The green frame is on exactly while the success banner shows, and a
      shown denial always has its reset pending. */
  predicate Coherent(v: View)
  {
    && (v.verified <==> v.banner.Some? && v.banner.value.kind == Success)
    && (v.banner.Some? && v.banner.value.kind == Failure ==> v.resetDue.Some?)
  }

  lemma StepCoherent(v: View, e: Stimulus)
    requires Coherent(v)
    ensures Coherent(Step(v, e))
  {
  }

  lemma {:induction false} RunCoherent(v: View, es: seq<Stimulus>)
    requires Coherent(v)
    ensures Coherent(Run(v, es))
    decreases |es|
  {
    if |es| > 0 {
      StepCoherent(v, es[0]);
      RunCoherent(Step(v, es[0]), es[1..]);
    }
  }

  // ---------------------------------------------------------------------
  // Run properties
  // ---------------------------------------------------------------------

  /** Between clearings, the entries shown have strictly increasing times,
      all newer than the last seen time at the start. */
  lemma {:induction false} ShownIncreasing(v: View, es: seq<Stimulus>)
    requires forall i :: 0 <= i < |es| ==> es[i].Poll? || es[i].PhaseTimer?
    ensures forall k :: 0 <= k < |Shown(v, es)| ==> Shown(v, es)[k] > v.lastSeen
    ensures forall i, j :: 0 <= i < j < |Shown(v, es)| ==> Shown(v, es)[i] < Shown(v, es)[j]
    ensures Run(v, es).lastSeen >= v.lastSeen
    decreases |es|
  {
    if |es| > 0 {
      var w := Step(v, es[0]);
      ShownIncreasing(w, es[1..]);
      var head := if AcceptedAt(v, es[0]).Some? then [AcceptedAt(v, es[0]).value] else [];
      var tail := Shown(w, es[1..]);
      assert Shown(v, es) == head + tail;
      assert w.lastSeen >= v.lastSeen;
      assert forall k :: 0 <= k < |head| ==> head[k] == w.lastSeen;
    }
  }

  /** With a device clock that never reads below `t` again, no entry
      stamped at or before `t` is shown once the last seen time has reached
      `t`: clearings and event changes only move it to later readings. */
  lemma {:induction false} NoRedisplayAfter(v: View, es: seq<Stimulus>, t: int)
    requires v.lastSeen >= t
    requires forall i :: 0 <= i < |es| ==> es[i].now >= t
    ensures forall k :: 0 <= k < |Shown(v, es)| ==> Shown(v, es)[k] > t
    ensures Run(v, es).lastSeen >= t
    decreases |es|
  {
    if |es| > 0 {
      var w := Step(v, es[0]);
      assert w.lastSeen >= t;
      NoRedisplayAfter(w, es[1..], t);
      var head := if AcceptedAt(v, es[0]).Some? then [AcceptedAt(v, es[0]).value] else [];
      assert Shown(v, es) == head + Shown(w, es[1..]);
    }
  }

  // ---------------------------------------------------------------------
  // Behaviour the timers allow
  // ---------------------------------------------------------------------

  /** A phase timer is not cancelled by a newer entry: a denial accepted
      within a second of a verified entry is turned into the success banner
      with the green frame, and the denied student's photo is shown. */
  lemma StalePhaseTimerRevealsDenial()
    ensures var ok := FeedItem("A1B2C3D4", "Ali bin Abu", Some("ali.jpg"), Verified, "Access Granted", 50);
            var no := FeedItem("E5F6G7H8", "Siti Sarah", Some("siti.jpg"), Denied, "Wrong Hall", 60);
            var w := Run(Mount(0), [Poll(100, Body(Some(ok))), Poll(600, Body(Some(no))), PhaseTimer(1100)]);
            && w.verified && w.banner == Some(Banner(Success, FaceVerifiedMessage))
            && PhotoShown(w) && w.details.value.status == Denied
  {
    var ok := FeedItem("A1B2C3D4", "Ali bin Abu", Some("ali.jpg"), Verified, "Access Granted", 50);
    var no := FeedItem("E5F6G7H8", "Siti Sarah", Some("siti.jpg"), Denied, "Wrong Hall", 60);
    var es := [Poll(100, Body(Some(ok))), Poll(600, Body(Some(no))), PhaseTimer(1100)];
    var w1 := Step(Mount(0), es[0]);
    assert w1.phaseDue == [1100] && w1.lastSeen == 50;
    var w2 := Step(w1, es[1]);
    assert w2.phaseDue == [1100] && w2.details == Some(Details("Siti Sarah", "E5F6G7H8", Some("siti.jpg"), Denied));
    var w3 := Step(w2, es[2]);
    assert w3.details == w2.details && w3.verified;
    assert es[1..][1..][1..] == [];
    assert Run(Mount(0), es) == Run(w1, es[1..]) == Run(w2, es[1..][1..]) == Run(w3, []);
  }

  /** The last seen time mixes the server's entry times with the device
      clock: when the server clock is ahead, the clearing moves it back and
      the same entry is shown a second time. */
  lemma SkewedClockRedisplay()
    ensures var item := FeedItem("A1B2C3D4", "Ali bin Abu", None, Verified, "Access Granted", 20000);
            var es := [Poll(1000, Body(Some(item))), ResetTimer(6000), Poll(7000, Body(Some(item)))];
            Shown(Mount(0), es) == [20000, 20000]
  {
    var item := FeedItem("A1B2C3D4", "Ali bin Abu", None, Verified, "Access Granted", 20000);
    var es := [Poll(1000, Body(Some(item))), ResetTimer(6000), Poll(7000, Body(Some(item)))];
    var w1 := Step(Mount(0), es[0]);
    assert w1.lastSeen == 20000 && w1.resetDue == Some(6000);
    var w2 := Step(w1, es[1]);
    assert w2.lastSeen == 6000;
    assert AcceptedAt(w2, es[2]) == Some(20000);
    assert es[1..][1..][1..] == [];
    assert Shown(w2, es[1..][1..]) == [20000] + Shown(Step(w2, es[2]), []);
    assert Shown(w1, es[1..]) == [] + Shown(w2, es[1..][1..]);
    assert Shown(Mount(0), es) == [20000] + Shown(w1, es[1..]);
  }
}
